=== FILE: README.md ===
# Orders table and outlet partners: a Dafny model

This project models the state handling behind two screens of the B2C admin
front end.

- **Orders table** (`OrdersTable.jsx`). It fetches the orders once. It keeps
  them in a local list and renders a sorted copy of that list. A sort
  configuration (column, direction) is toggled by clicks on the column
  headers. Rows can be deleted by position. The edit icon copies a row into
  a separate buffer. The component also defines a field-change handler and
  a save handler that writes the buffer back by position. The screen never
  calls those two, and no editor is rendered, so an edit started from the
  table never completes. The model covers all the handlers.
- **Outlet partners** (`outletPartnerDetails.jsx`). It fetches the partner
  list. A partner is removed by id once the server confirms the deletion.
  The component also defines a form record and a handler that updates one
  of its fields. The screen never calls that handler, renders no input and
  never reads the form, so the form stays as it was on mount. The model
  covers the handler anyway.

The model has three modules:

- `Js` (`js.dfy`): the JavaScript values the screens handle. A plain object
  is a `Record`, the list of its own properties in `Object.entries` order.
  `Get` is a property read. `Set` is `{ ...r, [k]: v }`. `Less` is the
  operator `<` as far as the comparator uses it; strings compare by their
  UTF-16 code units (`Utf16`), as JavaScript compares them. `ToText` is the
  conversion done by a template literal.
- `Orders` (`orders_table.dfy`): the sort toggle, the comparator, the sorted
  view (`SortedView`), positional delete (`RemoveAt`), the edit/save helpers
  and the products cell (`ProductsCell`, which fails the render when
  `products` is missing or null). The component itself is the class
  `OrdersTable`, with one field per piece of component state.
- `OutletPartners` (`outlet_partners.dfy`): the id filter (`WithoutPartner`),
  the initial form, and the class `OutletPartnerDetails`.

Network requests are replaced by an outcome parameter. `FetchOutcome` carries
the payload on success. The partner delete takes the server's answer as the
boolean `deleted`.

Each state-changing handler is a method whose `modifies` clause names exactly
the state fields the handler's setters touch. Its `ensures` gives the new
value of those fields as a function of the old state and the inputs. The
properties of those functions are proved as lemmas.

Main results:

- `SortedView` is a permutation of the list and is computed on a copy.
- When every two rows have distinct, comparable keys (`Ranked`), the
  ascending view has strictly increasing keys and the descending view has
  strictly decreasing ones (`SortedViewOrdered`).
- Under the same condition, toggling the direction reverses the view
  (`ToggleReverses`). This rests on `SortedUnique`: only one arrangement of
  the rows is sorted. So the result holds for any correct sorting algorithm,
  not only for the insertion sort the model uses.
- On the `products` and `createdAt` columns both keys read as
  "[object Object]". The comparator then answers 1 both ways
  (`ObjectKeysNeverPrecede`), so those columns promise no order. The initial
  sort column is `createdAt`. Two rows with equal keys are answered 1 both
  ways too (`EqualKeysNeverPrecede`).
- Row actions receive a position in the sorted view but apply it to the
  unsorted list. `ClickedRowSurvivesDelete` shows that the clicked order
  survives its own delete whenever the view and the list disagree at that
  position. `RowIndexMismatch` gives a two-order example where they do
  disagree.
- A delete does not clear a pending edit's index, so a later save writes
  the buffer at a stale position. When the edited row was the last one, one
  delete makes the save append the buffer (`SaveAfterDeleteAppends`). When a
  row before the edited one is deleted, the save overwrites the next order
  and the edited order keeps its old values (`SaveAfterDeleteOverwritesNext`).

On a successful fetch, `response.data.orders || []` replaces only a
missing or falsy `orders` field with an empty list. A truthy payload is
stored as it is.

## Model

| member | source | states |
|---|---|---|
| `Js.Get` | B2C-Admin-Frontend/src/components/OrdersTable.jsx:41 | for the keys the screens read (none of them an inherited name), a property read is defined exactly for the object's own keys; otherwise it is `undefined` |
| `Js.StringForm` | B2C-Admin-Frontend/src/components/OrdersTable.jsx:41 | the string a value takes part as in a comparison: a string itself, any object "[object Object]"; numbers, booleans and null have none in the model (definition; its consequences are `ObjectsNeverLess` and `ObjectKeysNeverPrecede`) |
| `Js.CodeUnits` | B2C-Admin-Frontend/src/components/OrdersTable.jsx:41 | a character is stored as one UTF-16 code unit inside the Basic Multilingual Plane and as a surrogate pair (high unit D800-DBFF first) above it; the units decode back to the character |
| `Js.Utf16Injective` | B2C-Admin-Frontend/src/components/OrdersTable.jsx:41 | two strings with the same code units are the same string, so comparing code units loses nothing |
| `Js.Utf16Append` | B2C-Admin-Frontend/src/components/OrdersTable.jsx:41 | the UTF-16 code units (`Utf16`) of a concatenation are the code units of its parts in turn, so a string is encoded character by character |
| `Js.TextLess` | B2C-Admin-Frontend/src/components/OrdersTable.jsx:41 | string `<`: lexicographic order on the UTF-16 code units (`Utf16`), a proper prefix first (definition; its properties are the `TextLess*` lemmas) |
| `Js.SurrogatePairBeforeHighBmp` | B2C-Admin-Frontend/src/components/OrdersTable.jsx:41 | string `<` is not code point order: U+10000 (units D800 DC00) sorts before U+FFFF |
| `Js.Less` | B2C-Admin-Frontend/src/components/OrdersTable.jsx:41-43 | `a[key] < b[key]`: two numbers numerically, two strings by code units, an object as "[object Object]", anything with `undefined` false (definition; its properties are `LessIrreflexive`, `LessTransitive`, `ObjectsNeverLess`) |
| `Js.Set` | B2C-Admin-Frontend/src/components/OrdersTable.jsx:79-84 | `{ ...prev, [key]: value }` reads `value` under `key` and leaves every other key's value unchanged; the key set gains `key`; an existing key keeps its place, a new key is appended; unique keys stay unique |
| `Js.TextLessIrreflexive` | B2C-Admin-Frontend/src/components/OrdersTable.jsx:41 | no string is less than itself under JavaScript's string `<` (code unit order) |
| `Js.TextLessTransitive` | B2C-Admin-Frontend/src/components/OrdersTable.jsx:41 | string `<` is transitive |
| `Js.TextLessTotal` | B2C-Admin-Frontend/src/components/OrdersTable.jsx:41 | two different strings are always ordered one way or the other |
| `Js.LessIrreflexive` | B2C-Admin-Frontend/src/components/OrdersTable.jsx:41 | `a[key] < a[key]` is false for every value, `undefined` included |
| `Js.LessTransitive` | B2C-Admin-Frontend/src/components/OrdersTable.jsx:40-44 | the modelled `<` (numbers with numbers, strings and objects with each other) is transitive, so it is a strict order; JavaScript's own `<` across kinds is not |
| `Js.ObjectsNeverLess` | B2C-Admin-Frontend/src/components/OrdersTable.jsx:41 | two object values both read as "[object Object]", so neither is less than the other |
| `Js.Decimal` | B2C-Admin-Frontend/src/components/OrdersTable.jsx:149 | a quantity below 2^53 prints as a non-empty run of decimal digits with no leading zero |
| `Js.DecimalRoundTrip` | B2C-Admin-Frontend/src/components/OrdersTable.jsx:149 | reading the printed digits back gives the printed number |
| `Js.ToText` | B2C-Admin-Frontend/src/components/OrdersTable.jsx:149 | `${value}` of an integer below 2^53 in size is its decimal numeral, with a leading "-" when negative, and it reads back as the number |
| `Orders.NextSortConfig` | B2C-Admin-Frontend/src/components/OrdersTable.jsx:47-53 | the configuration after a header click (definition; its properties are `HeaderClicks`) |
| `Orders.HeaderClicks` | B2C-Admin-Frontend/src/components/OrdersTable.jsx:47-53 | a header click selects that column; a new column starts ascending; on the same column the direction flips, and two clicks return to the start (ascending, descending, ascending) |
| `Orders.KeyLess` | B2C-Admin-Frontend/src/components/OrdersTable.jsx:41 | `a[sortConfig.key] < b[sortConfig.key]` (definition) |
| `Orders.Precedes` | B2C-Admin-Frontend/src/components/OrdersTable.jsx:40-44 | the comparator answers -1: the ascending test on `a, b`, the descending test `a[key] > b[key]` as `b[key] < a[key]` (definition; characterised by `Compare`) |
| `Orders.Compare` | B2C-Admin-Frontend/src/components/OrdersTable.jsx:39-45 | the comparator answers -1 or 1, never 0, and -1 exactly when `a` goes first for the configured direction |
| `Orders.PrecedesIrreflexive` | B2C-Admin-Frontend/src/components/OrdersTable.jsx:40-44 | the comparator never puts a row ahead of itself |
| `Orders.PrecedesTransitive` | B2C-Admin-Frontend/src/components/OrdersTable.jsx:40-44 | the "goes first" relation is transitive in both directions |
| `Orders.PrecedesAsymmetric` | B2C-Admin-Frontend/src/components/OrdersTable.jsx:40-44 | two rows are never each put ahead of the other |
| `Orders.Insert` | B2C-Admin-Frontend/src/components/OrdersTable.jsx:39 | one sorting step adds the row to the list and loses or duplicates nothing (multiset equality) |
| `Orders.SortedView` | B2C-Admin-Frontend/src/components/OrdersTable.jsx:39-45 | the rendered rows are a permutation of `orders`, taken from a copy, with the same count |
| `Orders.InsertSorted` | B2C-Admin-Frontend/src/components/OrdersTable.jsx:39-45 | inserting a row comparable with all the others keeps a sorted list sorted |
| `Orders.SortedViewSorted` | B2C-Admin-Frontend/src/components/OrdersTable.jsx:39-45 | with ranked keys the view follows the comparator at every pair of positions |
| `Orders.SortedViewOrdered` | B2C-Admin-Frontend/src/components/OrdersTable.jsx:40-44 | with ranked keys, ascending gives strictly increasing keys and descending strictly decreasing keys |
| `Orders.SortedUnique` | B2C-Admin-Frontend/src/components/OrdersTable.jsx:39-45 | two sorted lists holding the same rows are equal, so any correct sort of ranked keys gives this view |
| `Orders.ReverseSortedDescending` | B2C-Admin-Frontend/src/components/OrdersTable.jsx:40-44 | a list sorted ascending by a column, read backwards, is sorted descending by it |
| `Orders.ToggleReverses` | B2C-Admin-Frontend/src/components/OrdersTable.jsx:39-53 | with ranked keys, the descending view is exactly the ascending view reversed |
| `Orders.DistinctNumbersRanked` | B2C-Admin-Frontend/src/components/OrdersTable.jsx:41 | rows whose keys are pairwise distinct numbers are ranked |
| `Orders.DistinctTextsRanked` | B2C-Admin-Frontend/src/components/OrdersTable.jsx:41 | rows whose keys are pairwise distinct strings are ranked |
| `Orders.ObjectKeysNeverPrecede` | B2C-Admin-Frontend/src/components/OrdersTable.jsx:40-44 | on a column holding objects the comparator answers 1 whichever way round it is asked, so no order is promised |
| `Orders.EqualKeysNeverPrecede` | B2C-Admin-Frontend/src/components/OrdersTable.jsx:40-44 | two rows with equal keys (two orders of the same amount) make the comparator answer 1 both ways, so their relative order is not promised |
| `Orders.RemoveAt` | B2C-Admin-Frontend/src/components/OrdersTable.jsx:56 | an index in range removes exactly that position and keeps the rest in order (one shorter); any other index leaves the list unchanged |
| `Orders.ClickedRowSurvivesDelete` | B2C-Admin-Frontend/src/components/OrdersTable.jsx:140-168 | the index is a view position applied to the unsorted list: when the row shown at `i` is not `orders[i]`, deleting row `i` leaves the clicked order in the list |
| `Orders.RowIndexMismatch` | B2C-Admin-Frontend/src/components/OrdersTable.jsx:140-168 | two orders sorted by amount show the cheaper first, and deleting row 0 removes the costlier one |
| `Orders.EditCopy` | B2C-Admin-Frontend/src/components/OrdersTable.jsx:64 | `{ ...orders[index] }`: the record at the position, or `{}` for a missing row (definition; its properties are `EditSaveUnchanged` and `EditChangeSave`) |
| `Orders.WriteBack` | B2C-Admin-Frontend/src/components/OrdersTable.jsx:70-72 | `updatedOrders[index] = editData`: a position inside the list is overwritten and every other position kept, with the same length; the position just past the end appends the buffer; a negative index leaves the rows as they are |
| `Orders.SaveAfterDeleteAppends` | B2C-Admin-Frontend/src/components/OrdersTable.jsx:55-77 | edit row 1 of two, delete row 0, save: the index is not cleared by the delete, so the list becomes the remaining row followed by the buffer |
| `Orders.SaveAfterDeleteOverwritesNext` | B2C-Admin-Frontend/src/components/OrdersTable.jsx:55-77 | edit row 1 of three, delete row 0, save: the buffer overwrites the order that moved into position 1, and the edited order keeps its old values |
| `Orders.EditSaveUnchanged` | B2C-Admin-Frontend/src/components/OrdersTable.jsx:62-77 | edit then save with no field change gives back the same list |
| `Orders.EditChangeSave` | B2C-Admin-Frontend/src/components/OrdersTable.jsx:62-84 | edit, change one field, save: other rows are unchanged; the edited row has the new value under that key and every other field as before |
| `Orders.EntryText` | B2C-Admin-Frontend/src/components/OrdersTable.jsx:149 | `${key}: ${value}`: the key, then ": ", then the value's text |
| `Orders.ProductsText` | B2C-Admin-Frontend/src/components/OrdersTable.jsx:148-150 | the entries' texts joined by ", " are empty exactly when there are no entries |
| `Orders.CharEntries` | B2C-Admin-Frontend/src/components/OrdersTable.jsx:148 | `Object.entries` of a string: one entry per character, its key the position in decimal (it reads back as the position), its value that character |
| `Orders.ProductsCell` | B2C-Admin-Frontend/src/components/OrdersTable.jsx:148-150 | `Object.entries(order.products)` throws exactly when `products` is missing or null; otherwise the cell is the entries' text, empty exactly when an object has no entries or a string is empty; a number or boolean gives an empty cell |
| `Orders.StringProducts` | B2C-Admin-Frontend/src/components/OrdersTable.jsx:148-150 | a string "ab" in place of the products object renders as "0: a, 1: b" |
| `Orders.ProductsTextAppend` | B2C-Admin-Frontend/src/components/OrdersTable.jsx:148-150 | the cell is the "name: qty" texts in entry order joined by ", ": the text of two runs of entries is their texts joined by ", " |
| `Orders.TeaForTwo` | B2C-Admin-Frontend/src/components/OrdersTable.jsx:148-150 | the products object {"Tea": 2} renders as "Tea: 2" |
| `Orders.OrdersTable.constructor` | B2C-Admin-Frontend/src/components/OrdersTable.jsx:7-16 | on mount: no orders, loading, no error, empty banner, not editing, sorted by createdAt ascending; the table is not shown |
| `Orders.OrdersTable.ShowsTable` | B2C-Admin-Frontend/src/components/OrdersTable.jsx:101 | `!loading && !error` (definition; what it means after each step is stated by the constructor and `FetchOrders`) |
| `Orders.OrdersTable.FetchOrders` | B2C-Admin-Frontend/src/components/OrdersTable.jsx:21-36 | success stores the `orders` field, or `[]` when it is missing; failure keeps the list and sets exactly "Failed to load orders. Please try again later.", so no table is shown; loading ends either way, and after a success the table is shown exactly when there was no earlier error |
| `Orders.OrdersTable.HandleSort` | B2C-Admin-Frontend/src/components/OrdersTable.jsx:47-53 | only the sort configuration changes, to the next configuration for the clicked column |
| `Orders.OrdersTable.HandleDelete` | B2C-Admin-Frontend/src/components/OrdersTable.jsx:55-60 | the list loses exactly position `index` of the unsorted list (an out-of-range index changes nothing) and the banner reads "Order has been successfully deleted" |
| `Orders.OrdersTable.HandleEdit` | B2C-Admin-Frontend/src/components/OrdersTable.jsx:62-65 | captures the index and copies the record at it (`{}` for a missing row); the list is untouched |
| `Orders.OrdersTable.HandleSaveEdit` | B2C-Admin-Frontend/src/components/OrdersTable.jsx:67-77 | a no-op without an index or a buffer; otherwise writes the buffer at the index (appending it when the index is the list length), clears both, and sets "Order has been successfully updated" |
| `Orders.OrdersTable.HandleEditChange` | B2C-Admin-Frontend/src/components/OrdersTable.jsx:79-84 | the buffer becomes `{ ...prev, [key]: value }`: `value` under `key`, every other field kept, and with no buffer `{ [key]: value }` |
| `OutletPartners.InitialFormFields` | B2C-Admin-Frontend/src/components/outletPartnerDetails.jsx:16-21 | the initial form has firstName, lastName and phone as "" and img as null, and no other field |
| `OutletPartners.WithoutPartner` | B2C-Admin-Frontend/src/components/outletPartnerDetails.jsx:46 | filtering never lengthens the list |
| `OutletPartners.WithoutPartnerMembers` | B2C-Admin-Frontend/src/components/outletPartnerDetails.jsx:46 | a partner is kept exactly when it was there and its id differs; a list without that id comes back whole |
| `OutletPartners.WithoutPartnerAppend` | B2C-Admin-Frontend/src/components/outletPartnerDetails.jsx:46 | filtering works run by run, so kept partners stay in their original order |
| `OutletPartners.WithoutPartnerEmpty` | B2C-Admin-Frontend/src/components/outletPartnerDetails.jsx:46 | the filtered list is empty exactly when every partner has the removed id |
| `OutletPartners.WithoutPartnerIdempotent` | B2C-Admin-Frontend/src/components/outletPartnerDetails.jsx:46 | removing the same id twice removes nothing more |
| `OutletPartners.OutletPartnerDetails.constructor` | B2C-Admin-Frontend/src/components/outletPartnerDetails.jsx:14-21 | on mount: no partners, no partner being edited, the initial form; "No outlet partner found" is shown |
| `OutletPartners.OutletPartnerDetails.ShowsNoPartnersMessage` | B2C-Admin-Frontend/src/components/outletPartnerDetails.jsx:104-105 | `partners.length === 0` (definition; what it means after each step is stated by the constructor, `FetchPartners` and `HandleDelete`) |
| `OutletPartners.OutletPartnerDetails.FetchPartners` | B2C-Admin-Frontend/src/components/outletPartnerDetails.jsx:29-38 | success replaces the list with the response body, so the empty-list message is shown exactly when the body is empty; failure leaves the list unchanged |
| `OutletPartners.OutletPartnerDetails.HandleDelete` | B2C-Admin-Frontend/src/components/outletPartnerDetails.jsx:40-51 | a confirmed delete filters out every partner with that id, and the empty-list message then shows exactly when every partner had that id; a failed one leaves the list unchanged; the form and the partner being edited never change |
| `OutletPartners.OutletPartnerDetails.HandleInputChange` | B2C-Admin-Frontend/src/components/outletPartnerDetails.jsx:54-57 | the form gets the typed text under the input's name and keeps every other field; nothing else changes |
| `OutletPartners.OutletPartnerDetails.OpenEditor` | B2C-Admin-Frontend/src/components/outletPartnerDetails.jsx:132 | the edit button makes that partner the one being edited |
| `OutletPartners.OutletPartnerDetails.CloseEditor` | B2C-Admin-Frontend/src/components/outletPartnerDetails.jsx:151 | closing the edit dialog clears the partner being edited |

## Left out

- HTTP requests (the orders GET, the partner list GET, the partner DELETE) are not modelled. Their results are inputs: a `FetchOutcome`, and the `deleted` flag.
- The 3-second timers that clear the success banner are left out. They are timer behaviour; the model only sets the message.
- `toast` notifications, `console` logging, navigation on row click, `stopPropagation`, and all markup and styling are left out. They are presentational.
- Date formatting of `createdAt` with `toLocaleDateString` is left out. It depends on the clock and the locale.
- The Redux outlet store, `fetchOutletDetails`, the outlets table, and `EditPartnerModal` are not part of this model. They are external modules. The outlets table's delete button calls the same partner `HandleDelete`.
- Responses that arrive after the screen is gone are not modelled. The model is sequential.
- Orders.SortedView: the engine's `Array.prototype.sort` is replaced by an insertion sort driven by the same comparator. With ranked keys, `SortedUnique` makes the result algorithm-independent. Without ranked keys (ties, `undefined`, objects), the engine's order is not captured. When every key is tied (the comparator answers 1 throughout, as on the default `createdAt` column) the stand-in reverses the list, where V8 keeps the input order.
- Js.Less: only number-to-number and string-to-string comparisons are modelled. An object counts as the string "[object Object]". The coercions JavaScript applies to mixed kinds (number against string, `null`, booleans) are left out; the model treats those comparisons as false.
- Js.ToText and Js.Decimal: the model prints every integer in full. JavaScript does so only up to 2^53; above that it prints the shortest digits that read back as the same double, padded with zeros (`${2**60}` is "1152921504606847000"), and from 10^21 it uses exponent form ("1e+21").
- Js.Value: numbers are integers. Floating-point quantities, amounts and their printing are not modelled. Arrays are not a value kind.
- Js.Set: JavaScript lists integer-like keys first, in ascending order. The model does not capture that; it keeps insertion order for every key.
- Orders.OrdersTable.HandleSaveEdit and Orders.WriteBack: require the captured index to be at most the list length when an edit is pending. Two or more deletes between edit and save can break this. The source then writes beyond the end of the array and leaves holes, and the next render throws on a hole. The model does not represent arrays with holes. An index equal to the length is modelled: the buffer is appended. One delete reaches it only when the edited row was the last one; a delete before the edited row leaves the index inside the list, and the save overwrites the next order.
- Orders.CharEntries: JavaScript splits a string into UTF-16 code units, so a character outside the Basic Multilingual Plane gives two entries holding lone surrogates. The model gives one entry per character, which agrees only for strings inside that plane; lone surrogates are not Dafny characters.
- Orders.OrdersTable.FetchOrders: the `orders` payload is a list of records or missing. A truthy payload that is not an array (the code stores it as is) and falsy non-null values are not modelled.
- OutletPartners.OutletPartnerDetails.FetchPartners: the response body is taken to be a list of partners. A body of another shape is not modelled.

=== FILE: js.dfy ===
/**
  The JavaScript values the two admin screens handle: plain objects as their
  ordered list of own properties, the `<` operator as far as the tables sort
  by it, and the text a template literal `${v}` produces.
*/
module Js {

  /**
    An absent value: `undefined` in a property read, `null` in a component's
    state fields. A `null` stored in an object is the value `Null`.
  */
  datatype Option<+T> = None | Some(value: T)

  datatype Value =
    | Null
    | Bool(b: bool)
    | Num(n: int)
    | Text(s: string)
    | Object(entries: seq<Entry>)

  /** One own property of a plain object. */
  datatype Entry = Entry(key: string, val: Value)

  /** A plain object, its properties in the order `Object.entries` lists them. */
  type Record = seq<Entry>

  /** The string every plain object converts to. */
  const ObjectText := "[object Object]"

  function Keys(r: Record): set<string> {
    if r == [] then {} else {r[0].key} + Keys(r[1..])
  }

  /** No key occurs twice, as in every JavaScript object. */
  predicate UniqueKeys(r: Record) {
    r == [] || (r[0].key !in Keys(r[1..]) && UniqueKeys(r[1..]))
  }

  /** Property read `r[k]`; `None` is `undefined`. */
  function Get(r: Record, k: string): (v: Option<Value>)
    ensures v.Some? <==> k in Keys(r)
  {
    if r == [] then None
    else if r[0].key == k then Some(r[0].val)
    else Get(r[1..], k)
  }

  /**
    Spread with one computed property, `{ ...r, [k]: v }`: an existing
    property keeps its place and takes the new value, a new one goes last.
  */
  function Set(r: Record, k: string, v: Value): (r': Record)
    ensures Get(r', k) == Some(v)
    ensures forall k' :: k' != k ==> Get(r', k') == Get(r, k')
    ensures Keys(r') == Keys(r) + {k}
    ensures k in Keys(r) ==> |r'| == |r| && forall i :: 0 <= i < |r| ==> r'[i].key == r[i].key
    ensures k !in Keys(r) ==> r' == r + [Entry(k, v)]
    ensures UniqueKeys(r) ==> UniqueKeys(r')
  {
    if r == [] then [Entry(k, v)]
    else if r[0].key == k then [Entry(k, v)] + r[1..]
    else [r[0]] + Set(r[1..], k, v)
  }

  /** The string a value takes part as in a comparison, if any. */
  function StringForm(v: Value): Option<string> {
    match v
    case Text(s) => Some(s)
    case Object(_) => Some(ObjectText)
    case _ => None
  }

  /**
    The UTF-16 code units JavaScript stores for one character: the character
    itself inside the Basic Multilingual Plane, a surrogate pair above it.
    The units decode back to the character.
  */
  function CodeUnits(c: char): (u: seq<int>)
    ensures |u| == 1 || |u| == 2
    ensures |u| == 2 <==> 0xD800 <= u[0] < 0xDC00
    ensures |u| == 1 ==> c as int == u[0]
    ensures |u| == 2 ==> c as int == 0x10000 + (u[0] - 0xD800) * 0x400 + (u[1] - 0xDC00)
  {
    if c as int < 0x10000 then [c as int]
    else
      var v := c as int - 0x10000;
      [0xD800 + v / 0x400, 0xDC00 + v % 0x400]
  }

  /** The UTF-16 code units of a string, the units JavaScript's string `<` compares. */
  function Utf16(s: string): (u: seq<int>)
    ensures |u| >= |s|
  {
    if s == [] then [] else CodeUnits(s[0]) + Utf16(s[1..])
  }

  /** The code units of a concatenation are the two strings' code units in turn. */
  lemma {:induction false} Utf16Append(a: string, b: string)
    ensures Utf16(a + b) == Utf16(a) + Utf16(b)
  {
    if a == [] {
      assert a + b == b;
    } else {
      assert (a + b)[0] == a[0] && (a + b)[1..] == a[1..] + b;
      Utf16Append(a[1..], b);
    }
  }

  /** Two strings with the same code units are the same string. */
  lemma {:induction false} Utf16Injective(a: string, b: string)
    requires Utf16(a) == Utf16(b)
    ensures a == b
  {
    if a != [] && b != [] {
      var w, ua, ub := Utf16(a), CodeUnits(a[0]), CodeUnits(b[0]);
      assert w == ua + Utf16(a[1..]) && w == ub + Utf16(b[1..]);
      assert ua[0] == w[0] == ub[0];
      assert ua == w[..|ua|] == ub;
      assert Utf16(a[1..]) == w[|ua|..] == Utf16(b[1..]);
      Utf16Injective(a[1..], b[1..]);
      assert a == [a[0]] + a[1..] && b == [b[0]] + b[1..];
    }
  }

  /** Strict lexicographic order on code unit sequences; a proper prefix comes first. */
  predicate UnitsLess(a: seq<int>, b: seq<int>) {
    |b| > 0 && (|a| == 0 || a[0] < b[0] || (a[0] == b[0] && UnitsLess(a[1..], b[1..])))
  }

  /** JavaScript's string `<`: the code unit sequences compared lexicographically. */
  predicate TextLess(a: string, b: string) {
    UnitsLess(Utf16(a), Utf16(b))
  }

  /**
    `<` on two property reads: two numbers compare numerically; two strings
    compare by code units, an object taking part as the string
    "[object Object]". Anything involving `undefined` is false.
  */
  predicate Less(a: Option<Value>, b: Option<Value>) {
    a.Some? && b.Some? &&
    if a.value.Num? && b.value.Num? then a.value.n < b.value.n
    else
      var x, y := StringForm(a.value), StringForm(b.value);
      x.Some? && y.Some? && TextLess(x.value, y.value)
  }

  lemma {:induction false} UnitsLessIrreflexive(a: seq<int>)
    ensures !UnitsLess(a, a)
  {
    if |a| > 0 {
      UnitsLessIrreflexive(a[1..]);
    }
  }

  lemma {:induction false} UnitsLessTransitive(a: seq<int>, b: seq<int>, c: seq<int>)
    requires UnitsLess(a, b) && UnitsLess(b, c)
    ensures UnitsLess(a, c)
  {
    if |a| > 0 && a[0] == b[0] && b[0] == c[0] {
      UnitsLessTransitive(a[1..], b[1..], c[1..]);
    }
  }

  lemma {:induction false} UnitsLessTotal(a: seq<int>, b: seq<int>)
    requires a != b
    ensures UnitsLess(a, b) || UnitsLess(b, a)
  {
    if |a| > 0 && |b| > 0 && a[0] == b[0] {
      assert a == [a[0]] + a[1..] && b == [b[0]] + b[1..];
      UnitsLessTotal(a[1..], b[1..]);
    }
  }

  lemma TextLessIrreflexive(a: string)
    ensures !TextLess(a, a)
  {
    UnitsLessIrreflexive(Utf16(a));
  }

  lemma TextLessTransitive(a: string, b: string, c: string)
    requires TextLess(a, b) && TextLess(b, c)
    ensures TextLess(a, c)
  {
    UnitsLessTransitive(Utf16(a), Utf16(b), Utf16(c));
  }

  /** Two different strings are always ordered one way or the other. */
  lemma TextLessTotal(a: string, b: string)
    requires a != b
    ensures TextLess(a, b) || TextLess(b, a)
  {
    if Utf16(a) == Utf16(b) {
      Utf16Injective(a, b);
    }
    UnitsLessTotal(Utf16(a), Utf16(b));
  }

  /**
    The order is not the order of code points: U+10000 is stored as the pair
    D800 DC00, so it sorts before U+FFFF.
  */
  lemma SurrogatePairBeforeHighBmp()
    ensures TextLess("\U{10000}", "\U{FFFF}")
    ensures !TextLess("\U{FFFF}", "\U{10000}")
  {
    assert Utf16("\U{10000}") == [0xD800, 0xDC00];
    assert Utf16("\U{FFFF}") == [0xFFFF];
  }

  lemma LessIrreflexive(a: Option<Value>)
    ensures !Less(a, a)
  {
    if a.Some? && StringForm(a.value).Some? {
      TextLessIrreflexive(StringForm(a.value).value);
    }
  }

  lemma LessTransitive(a: Option<Value>, b: Option<Value>, c: Option<Value>)
    requires Less(a, b) && Less(b, c)
    ensures Less(a, c)
  {
    if !b.value.Num? {
      TextLessTransitive(StringForm(a.value).value, StringForm(b.value).value, StringForm(c.value).value);
    }
  }

  /** Two objects both read as "[object Object]", so neither is less than the other. */
  lemma ObjectsNeverLess(u: Value, v: Value)
    requires u.Object? && v.Object?
    ensures !Less(Some(u), Some(v))
  {
    TextLessIrreflexive(StringForm(u).value);
  }

  /** The decimal digit for `d`. */
  function Digit(d: nat): char
    requires d < 10
  {
    ('0' as int + d) as char
  }

  /**
    The decimal numeral of a non-negative integer, as JavaScript prints one
    below 2^53; larger numbers are printed differently there.
  */
  function Decimal(n: nat): (s: string)
    ensures |s| > 0
    ensures forall i :: 0 <= i < |s| ==> '0' <= s[i] <= '9'
    ensures s[0] == '0' ==> n == 0
  {
    if n < 10 then [Digit(n)] else Decimal(n / 10) + [Digit(n % 10)]
  }

  /** The number a string of decimal digits denotes. */
  function DigitsValue(s: string): int {
    if s == [] then 0 else DigitsValue(s[..|s| - 1]) * 10 + (s[|s| - 1] as int - '0' as int)
  }

  /** Reading the numeral back gives the number printed. */
  lemma {:induction false} DecimalRoundTrip(n: nat)
    ensures DigitsValue(Decimal(n)) == n
  {
    if n >= 10 {
      DecimalRoundTrip(n / 10);
      var s := Decimal(n / 10) + [Digit(n % 10)];
      assert s[..|s| - 1] == Decimal(n / 10);
    }
  }

  /** Template-literal conversion `${v}`. */
  function ToText(v: Value): (t: string)
    ensures v.Num? && v.n >= 0 ==> DigitsValue(t) == v.n
    ensures v.Num? && v.n < 0 ==> |t| > 1 && t[0] == '-' && DigitsValue(t[1..]) == -v.n
  {
    match v
    case Null => "null"
    case Bool(b) => if b then "true" else "false"
    case Num(n) =>
      if n < 0 then DecimalRoundTrip(-n); "-" + Decimal(-n)
      else DecimalRoundTrip(n); Decimal(n)
    case Text(s) => s
    case Object(_) => ObjectText
  }
}

=== FILE: orders_table.dfy ===
/**
  The orders screen: a local list of order records fetched once, a sorted
  view of it recomputed on every render, a sort toggle on the column headers,
  and row actions that delete a row or edit it through a separate buffer.
*/
module Orders {
  import opened Js

  datatype Direction = Ascending | Descending

  /** The column the view is sorted by and in which direction. */
  datatype SortConfig = SortConfig(key: string, direction: Direction)

  const InitialSortConfig := SortConfig("createdAt", Ascending)
  const FetchErrorMessage := "Failed to load orders. Please try again later."
  const DeletedMessage := "Order has been successfully deleted"
  const UpdatedMessage := "Order has been successfully updated"

  /**
    How the orders request ended: it threw, or it answered with a body whose
    `orders` field is `payload` (`None` when the field is missing or null).
  */
  datatype FetchOutcome = FetchFailed | Received(payload: Option<seq<Record>>)

  // ---------------------------------------------------------------------------
  // The sort toggle

  /** The configuration after a click on the header of column `key`. */
  function NextSortConfig(c: SortConfig, key: string): SortConfig {
    SortConfig(key, if c.key == key && c.direction == Ascending then Descending else Ascending)
  }

  /**
    A click always selects the clicked column; a new column starts ascending,
    and clicking the same header twice returns to where it was, so repeated
    clicks alternate ascending and descending.
  */
  lemma HeaderClicks(c: SortConfig, key: string)
    ensures NextSortConfig(c, key).key == key
    ensures c.key != key ==> NextSortConfig(c, key).direction == Ascending
    ensures c.key == key ==> NextSortConfig(c, key).direction != c.direction
    ensures c.key == key ==> NextSortConfig(NextSortConfig(c, key), key) == c
  {
  }

  // ---------------------------------------------------------------------------
  // The comparator and the sorted view

  /** `a[key] < b[key]`. */
  predicate KeyLess(a: Record, b: Record, key: string) {
    Less(Get(a, key), Get(b, key))
  }

  /** Whether the comparator puts `a` before `b` (returns -1). */
  predicate Precedes(a: Record, b: Record, cfg: SortConfig) {
    if cfg.direction == Ascending then KeyLess(a, b, cfg.key) else KeyLess(b, a, cfg.key)
  }

  /** The comparator handed to `sort`: it answers -1 or 1 and never 0. */
  function Compare(a: Record, b: Record, cfg: SortConfig): (r: int)
    ensures r == -1 || r == 1
    ensures r == -1 <==> Precedes(a, b, cfg)
  {
    if cfg.direction == Ascending then
      (if KeyLess(a, b, cfg.key) then -1 else 1)
    else
      (if KeyLess(b, a, cfg.key) then -1 else 1)
  }

  /** Inserts `x` before the first row the comparator does not put ahead of it. */
  function Insert(x: Record, s: seq<Record>, cfg: SortConfig): (r: seq<Record>)
    ensures multiset(r) == multiset(s) + multiset{x}
  {
    if s == [] then [x]
    else if Compare(x, s[0], cfg) < 0 then [x] + s
    else
      assert s == [s[0]] + s[1..];
      [s[0]] + Insert(x, s[1..], cfg)
  }

  /**
    `[...orders].sort(comparator)`: the rows in display order. Sorting works
    on a copy, so the list itself stays as it is; the engine's sorting
    algorithm is stood in for by an insertion sort driven by the same
    comparator.
  */
  function SortedView(orders: seq<Record>, cfg: SortConfig): (r: seq<Record>)
    ensures multiset(r) == multiset(orders)
    ensures |r| == |orders|
  {
    if orders == [] then []
    else
      assert orders == [orders[0]] + orders[1..];
      Insert(orders[0], SortedView(orders[1..], cfg), cfg)
  }

  predicate Sorted(s: seq<Record>, cfg: SortConfig) {
    forall i, j :: 0 <= i < j < |s| ==> Precedes(s[i], s[j], cfg)
  }

  /** Every two rows at different positions have distinct, comparable keys. */
  predicate Ranked(orders: seq<Record>, key: string) {
    forall i, j :: 0 <= i < |orders| && 0 <= j < |orders| && i != j ==>
      KeyLess(orders[i], orders[j], key) || KeyLess(orders[j], orders[i], key)
  }

  lemma PrecedesIrreflexive(a: Record, cfg: SortConfig)
    ensures !Precedes(a, a, cfg)
  {
    LessIrreflexive(Get(a, cfg.key));
  }

  lemma PrecedesTransitive(a: Record, b: Record, c: Record, cfg: SortConfig)
    requires Precedes(a, b, cfg) && Precedes(b, c, cfg)
    ensures Precedes(a, c, cfg)
  {
    var k := cfg.key;
    if cfg.direction == Ascending {
      LessTransitive(Get(a, k), Get(b, k), Get(c, k));
    } else {
      LessTransitive(Get(c, k), Get(b, k), Get(a, k));
    }
  }

  lemma PrecedesAsymmetric(a: Record, b: Record, cfg: SortConfig)
    requires Precedes(a, b, cfg)
    ensures !Precedes(b, a, cfg)
  {
    if Precedes(b, a, cfg) {
      PrecedesTransitive(a, b, a, cfg);
      PrecedesIrreflexive(a, cfg);
    }
  }

  lemma SortedHeadFirst(s: seq<Record>, y: Record, cfg: SortConfig)
    requires Sorted(s, cfg) && y in s && y != s[0]
    ensures Precedes(s[0], y, cfg)
  {
    var k :| 0 <= k < |s| && s[k] == y;
  }

  /** A row that precedes every row of a sorted list can go in front of it. */
  lemma PrependSorted(h: Record, t: seq<Record>, cfg: SortConfig)
    requires Sorted(t, cfg)
    requires forall y :: y in t ==> Precedes(h, y, cfg)
    ensures Sorted([h] + t, cfg)
  {
    var r := [h] + t;
    forall i, j | 0 <= i < j < |r| ensures Precedes(r[i], r[j], cfg) {
      assert r[j] == t[j - 1] && r[j] in t;
      if i > 0 {
        assert r[i] == t[i - 1];
      }
    }
  }

  lemma InsertMembers(x: Record, s: seq<Record>, cfg: SortConfig, y: Record)
    requires y in Insert(x, s, cfg)
    ensures y == x || y in s
  {
    assert y in multiset(Insert(x, s, cfg));
  }

  /** Inserting a row comparable with all the others keeps a sorted list sorted. */
  lemma {:induction false} InsertSorted(x: Record, s: seq<Record>, cfg: SortConfig)
    requires Sorted(s, cfg)
    requires forall y :: y in s ==> Precedes(x, y, cfg) || Precedes(y, x, cfg)
    ensures Sorted(Insert(x, s, cfg), cfg)
  {
    if s == [] {
    } else if Compare(x, s[0], cfg) < 0 {
      forall y | y in s ensures Precedes(x, y, cfg) {
        if y != s[0] {
          SortedHeadFirst(s, y, cfg);
          PrecedesTransitive(x, s[0], y, cfg);
        }
      }
      PrependSorted(x, s, cfg);
    } else {
      var tail := s[1..];
      assert Sorted(tail, cfg);
      InsertSorted(x, tail, cfg);
      var t := Insert(x, tail, cfg);
      forall y | y in t ensures Precedes(s[0], y, cfg) {
        InsertMembers(x, tail, cfg, y);
        if y != x {
          var k :| 0 <= k < |tail| && tail[k] == y;
          assert s[k + 1] == y;
        }
      }
      PrependSorted(s[0], t, cfg);
    }
  }

  /** With ranked keys, the view follows the comparator at every pair of positions. */
  lemma {:induction false} SortedViewSorted(orders: seq<Record>, cfg: SortConfig)
    requires Ranked(orders, cfg.key)
    ensures Sorted(SortedView(orders, cfg), cfg)
  {
    if orders != [] {
      var rest := orders[1..];
      assert Ranked(rest, cfg.key) by {
        forall i, j | 0 <= i < |rest| && 0 <= j < |rest| && i != j
          ensures KeyLess(rest[i], rest[j], cfg.key) || KeyLess(rest[j], rest[i], cfg.key)
        {
          assert rest[i] == orders[i + 1] && rest[j] == orders[j + 1];
        }
      }
      SortedViewSorted(rest, cfg);
      var v := SortedView(rest, cfg);
      forall y | y in v ensures Precedes(orders[0], y, cfg) || Precedes(y, orders[0], cfg) {
        assert y in multiset(rest);
        var k :| 0 <= k < |rest| && rest[k] == y;
        assert orders[k + 1] == y;
      }
      InsertSorted(orders[0], v, cfg);
    }
  }

  /**
    When the rows' keys are distinct and comparable, the ascending view has
    strictly increasing keys and the descending view strictly decreasing ones.
  */
  lemma SortedViewOrdered(orders: seq<Record>, cfg: SortConfig)
    requires Ranked(orders, cfg.key)
    ensures var r := SortedView(orders, cfg);
      cfg.direction == Ascending ==>
        forall i, j :: 0 <= i < j < |r| ==> KeyLess(r[i], r[j], cfg.key)
    ensures var r := SortedView(orders, cfg);
      cfg.direction == Descending ==>
        forall i, j :: 0 <= i < j < |r| ==> KeyLess(r[j], r[i], cfg.key)
  {
    SortedViewSorted(orders, cfg);
  }

  /** Two sorted lists holding the same rows start with the same row. */
  lemma SortedHeadsAgree(s: seq<Record>, t: seq<Record>, cfg: SortConfig)
    requires Sorted(s, cfg) && Sorted(t, cfg)
    requires s != [] && multiset(s) == multiset(t)
    ensures t != [] && s[0] == t[0]
  {
    assert s[0] in multiset(t);
    assert t[0] in multiset(s);
    if s[0] != t[0] {
      SortedHeadFirst(s, t[0], cfg);
      SortedHeadFirst(t, s[0], cfg);
      PrecedesAsymmetric(s[0], t[0], cfg);
      assert false;
    }
  }

  lemma SortedTail(s: seq<Record>, cfg: SortConfig)
    requires Sorted(s, cfg) && s != []
    ensures Sorted(s[1..], cfg)
  {
  }

  lemma SameTails<T>(s: seq<T>, t: seq<T>)
    requires s != [] && t != [] && s[0] == t[0]
    requires multiset(s) == multiset(t)
    ensures multiset(s[1..]) == multiset(t[1..])
  {
    assert s == [s[0]] + s[1..] && t == [t[0]] + t[1..];
    assert multiset(s[1..]) == multiset(s) - multiset{s[0]};
  }

  /** Only one arrangement of a multiset follows the comparator at every pair. */
  lemma {:induction false} SortedUnique(s: seq<Record>, t: seq<Record>, cfg: SortConfig)
    requires Sorted(s, cfg) && Sorted(t, cfg)
    requires multiset(s) == multiset(t)
    ensures s == t
  {
    if s == [] {
      assert |t| == |multiset(t)| == 0;
    } else {
      SortedHeadsAgree(s, t, cfg);
      SameTails(s, t);
      SortedTail(s, cfg);
      SortedTail(t, cfg);
      SortedUnique(s[1..], t[1..], cfg);
      assert s == [s[0]] + s[1..] && t == [t[0]] + t[1..];
    }
  }

  function Reverse<T>(s: seq<T>): (r: seq<T>)
    ensures |r| == |s|
    ensures forall i :: 0 <= i < |s| ==> r[i] == s[|s| - 1 - i]
    ensures multiset(r) == multiset(s)
  {
    if s == [] then []
    else
      assert s == [s[0]] + s[1..];
      Reverse(s[1..]) + [s[0]]
  }

  /** Read backwards, a list sorted ascending by a column is sorted descending by it. */
  lemma ReverseSortedDescending(asc: seq<Record>, key: string)
    requires Sorted(asc, SortConfig(key, Ascending))
    ensures Sorted(Reverse(asc), SortConfig(key, Descending))
  {
    var rev, n := Reverse(asc), |asc|;
    forall i, j | 0 <= i < j < n ensures Precedes(rev[i], rev[j], SortConfig(key, Descending)) {
      assert rev[i] == asc[n - 1 - i] && rev[j] == asc[n - 1 - j];
      assert Precedes(asc[n - 1 - j], asc[n - 1 - i], SortConfig(key, Ascending));
    }
  }

  /** With ranked keys, toggling the direction of a column reverses the view. */
  lemma ToggleReverses(orders: seq<Record>, key: string)
    requires Ranked(orders, key)
    ensures SortedView(orders, SortConfig(key, Descending))
         == Reverse(SortedView(orders, SortConfig(key, Ascending)))
  {
    var up, down := SortConfig(key, Ascending), SortConfig(key, Descending);
    SortedViewSorted(orders, up);
    SortedViewSorted(orders, down);
    var asc := SortedView(orders, up);
    ReverseSortedDescending(asc, key);
    SortedUnique(SortedView(orders, down), Reverse(asc), down);
  }

  /** Rows whose keys are distinct numbers are ranked. */
  lemma DistinctNumbersRanked(orders: seq<Record>, key: string)
    requires forall i :: 0 <= i < |orders| ==> Get(orders[i], key).Some? && Get(orders[i], key).value.Num?
    requires forall i, j :: 0 <= i < j < |orders| ==> Get(orders[i], key) != Get(orders[j], key)
    ensures Ranked(orders, key)
  {
    forall i, j | 0 <= i < |orders| && 0 <= j < |orders| && i != j
      ensures KeyLess(orders[i], orders[j], key) || KeyLess(orders[j], orders[i], key)
    {
      if i > j {
        assert Get(orders[j], key) != Get(orders[i], key);
      }
    }
  }

  /** Rows whose keys are distinct strings are ranked. */
  lemma DistinctTextsRanked(orders: seq<Record>, key: string)
    requires forall i :: 0 <= i < |orders| ==> Get(orders[i], key).Some? && Get(orders[i], key).value.Text?
    requires forall i, j :: 0 <= i < j < |orders| ==> Get(orders[i], key) != Get(orders[j], key)
    ensures Ranked(orders, key)
  {
    forall i, j | 0 <= i < |orders| && 0 <= j < |orders| && i != j
      ensures KeyLess(orders[i], orders[j], key) || KeyLess(orders[j], orders[i], key)
    {
      var a, b := Get(orders[i], key).value, Get(orders[j], key).value;
      if i > j {
        assert Get(orders[j], key) != Get(orders[i], key);
      }
      TextLessTotal(a.s, b.s);
    }
  }

  /**
    On a column holding objects (`products`, `createdAt`) both keys read as
    "[object Object]": the comparator answers 1 whichever way round it is
    asked, so the view promises no order there.
  */
  lemma ObjectKeysNeverPrecede(a: Record, b: Record, cfg: SortConfig)
    requires Get(a, cfg.key).Some? && Get(a, cfg.key).value.Object?
    requires Get(b, cfg.key).Some? && Get(b, cfg.key).value.Object?
    ensures Compare(a, b, cfg) == 1 && Compare(b, a, cfg) == 1
  {
    var x, y := Get(a, cfg.key), Get(b, cfg.key);
    ObjectsNeverLess(x.value, y.value);
    ObjectsNeverLess(y.value, x.value);
  }

  /**
    Two rows with equal keys, say two orders of the same amount: the
    comparator answers 1 whichever way round it is asked, so their order in
    the view is left to the sorting algorithm.
  */
  lemma EqualKeysNeverPrecede(a: Record, b: Record, cfg: SortConfig)
    requires Get(a, cfg.key) == Get(b, cfg.key)
    ensures Compare(a, b, cfg) == 1 && Compare(b, a, cfg) == 1
  {
    LessIrreflexive(Get(a, cfg.key));
  }

  // ---------------------------------------------------------------------------
  // Row actions

  /** `s.filter((_, i) => i !== index)`: every position but `index`, in order. */
  function RemoveAt<T>(s: seq<T>, index: int): (r: seq<T>)
    ensures 0 <= index < |s| ==> r == s[..index] + s[index + 1..]
    ensures !(0 <= index < |s|) ==> r == s
  {
    if s == [] then []
    else
      assert s == [s[0]] + s[1..];
      (if index == 0 then [] else [s[0]]) + RemoveAt(s[1..], index - 1)
  }

  /**
    The position a row action receives counts rows of the sorted view, but
    the action applies it to the unsorted list. Whenever the row shown at
    `i` is not the order at `i` of the list, deleting row `i` leaves the
    clicked order in place.
  */
  lemma ClickedRowSurvivesDelete(orders: seq<Record>, cfg: SortConfig, i: nat)
    requires i < |orders|
    requires SortedView(orders, cfg)[i] != orders[i]
    ensures SortedView(orders, cfg)[i] in RemoveAt(orders, i)
  {
    var shown := SortedView(orders, cfg)[i];
    assert shown in multiset(orders);
    OtherOccurrenceSurvives(orders, i, shown);
  }

  /** A value held at a position other than `i` is still there once `i` is removed. */
  lemma OtherOccurrenceSurvives<T>(s: seq<T>, i: nat, x: T)
    requires i < |s| && x in s && x != s[i]
    ensures x in RemoveAt(s, i)
  {
    var k :| 0 <= k < |s| && s[k] == x;
    var before, after := s[..i], s[i + 1..];
    assert RemoveAt(s, i) == before + after;
    if k < i {
      assert before[k] == x;
    } else {
      assert after[k - i - 1] == x;
    }
  }

  const CostlyOrder: Record := [Entry("id", Text("a")), Entry("amount", Num(200))]
  const CheapOrder: Record := [Entry("id", Text("b")), Entry("amount", Num(100))]

  /**
    A list of two orders sorted by amount shows the cheaper one first; the
    trash icon on that first row removes the costlier one.
  */
  lemma RowIndexMismatch()
    ensures SortedView([CostlyOrder, CheapOrder], SortConfig("amount", Ascending)) == [CheapOrder, CostlyOrder]
    ensures RemoveAt([CostlyOrder, CheapOrder], 0) == [CheapOrder]
  {
    var orders := [CostlyOrder, CheapOrder];
    var cfg := SortConfig("amount", Ascending);
    assert orders[1..] == [CheapOrder];
    assert SortedView([CheapOrder], cfg) == [CheapOrder];
    assert Compare(CostlyOrder, CheapOrder, cfg) == 1;
  }

  /** `{ ...orders[index] }`: spreading the `undefined` of a missing row gives `{}`. */
  function EditCopy(orders: seq<Record>, index: int): Record {
    if 0 <= index < |orders| then orders[index] else []
  }

  /**
    `updatedOrders[index] = record` on a copy of the list: a position inside
    the list is overwritten, the position just past the end appends the
    record, and a negative index names a property that is no array element,
    so the rows stay as they are.
  */
  function WriteBack(orders: seq<Record>, index: int, record: Record): (r: seq<Record>)
    requires index <= |orders|
    ensures index < |orders| ==> |r| == |orders|
    ensures index == |orders| ==> r == orders + [record]
    ensures forall j :: 0 <= j < |orders| && j != index ==> r[j] == orders[j]
    ensures 0 <= index ==> r[index] == record
  {
    if index < 0 then orders
    else if index == |orders| then orders + [record]
    else orders[index := record]
  }

  /**
    Edit row 1 of two, delete row 0, save: the delete does not clear the
    captured index, so the save appends the buffer after the remaining row.
  */
  lemma SaveAfterDeleteAppends(a: Record, b: Record, edited: Record)
    ensures WriteBack(RemoveAt([a, b], 0), 1, edited) == [b, edited]
  {
    assert [a, b][1..] == [b];
    assert RemoveAt([a, b], 0) == [b];
  }

  /**
    Edit row 1 of three, delete row 0, save: the captured index now names
    the next order, which the buffer overwrites, while the edited order
    keeps its old values.
  */
  lemma SaveAfterDeleteOverwritesNext(a: Record, b: Record, c: Record, edited: Record)
    ensures WriteBack(RemoveAt([a, b, c], 0), 1, edited) == [b, edited]
  {
    assert [a, b, c][1..] == [b, c];
    assert [b, c][1..] == [c];
    assert RemoveAt([a, b, c], 0) == [b, c];
  }

  /** Editing a row and saving it without changes gives back the same list. */
  lemma EditSaveUnchanged(orders: seq<Record>, index: int)
    requires index < |orders|
    ensures WriteBack(orders, index, EditCopy(orders, index)) == orders
  {
  }

  /**
    Edit row `index`, change field `key` to `value`, save: the other rows are
    as before, and the edited row has `value` under `key` and every other
    field as before.
  */
  lemma EditChangeSave(orders: seq<Record>, index: nat, key: string, value: Value)
    requires index < |orders|
    ensures var saved := WriteBack(orders, index, Set(EditCopy(orders, index), key, value));
      && |saved| == |orders|
      && (forall j :: 0 <= j < |orders| && j != index ==> saved[j] == orders[j])
      && Get(saved[index], key) == Some(value)
      && (forall k :: k != key ==> Get(saved[index], k) == Get(orders[index], k))
  {
  }

  // ---------------------------------------------------------------------------
  // The products cell

  /** `${key}: ${value}` for one entry. */
  function EntryText(e: Entry): (t: string)
    ensures |t| >= |e.key| + 2
    ensures t[..|e.key|] == e.key
    ensures t[|e.key|..|e.key| + 2] == ": "
  {
    e.key + ": " + ToText(e.val)
  }

  /**
    `Object.entries(products).map(([k, v]) => `${k}: ${v}`).join(", ")`:
    empty exactly when the products object has no entries.
  */
  function ProductsText(products: seq<Entry>): (t: string)
    ensures t == [] <==> products == []
  {
    if |products| == 0 then ""
    else if |products| == 1 then EntryText(products[0])
    else EntryText(products[0]) + ", " + ProductsText(products[1..])
  }

  /** The text of two runs of entries is their texts joined by ", ". */
  lemma {:induction false} ProductsTextAppend(a: seq<Entry>, b: seq<Entry>)
    requires a != [] && b != []
    ensures ProductsText(a + b) == ProductsText(a) + ", " + ProductsText(b)
  {
    if |a| == 1 {
      assert (a + b)[1..] == b;
    } else {
      assert (a + b)[1..] == a[1..] + b;
      ProductsTextAppend(a[1..], b);
    }
  }

  /**
    `Object.entries(s)` of a string: one entry per character, keyed by its
    position written in decimal, holding that character as a string.
  */
  function CharEntries(s: string): (r: seq<Entry>)
    ensures |r| == |s|
    ensures forall i :: 0 <= i < |s| ==> DigitsValue(r[i].key) == i && r[i].val == Text([s[i]])
  {
    assert forall i: nat :: DigitsValue(Decimal(i)) == i by {
      forall i: nat { DecimalRoundTrip(i); }
    }
    seq(|s|, i requires 0 <= i < |s| => Entry(Decimal(i), Text([s[i]])))
  }

  /**
    The products cell of `order`. `None` when `Object.entries` throws because
    `products` is missing or null, which fails the render of the whole table;
    a number or a boolean has no entries and gives an empty cell.
  */
  function ProductsCell(order: Record): (cell: Option<string>)
    ensures cell.None? <==> Get(order, "products").None? || Get(order, "products") == Some(Null)
    ensures Get(order, "products").Some? && Get(order, "products").value.Object? ==>
      (cell == Some("") <==> Get(order, "products").value.entries == [])
    ensures Get(order, "products").Some? && Get(order, "products").value.Text? ==>
      (cell == Some("") <==> Get(order, "products").value.s == [])
  {
    match Get(order, "products")
    case None => None
    case Some(v) =>
      match v
      case Null => None
      case Object(es) => Some(ProductsText(es))
      case Text(s) => Some(ProductsText(CharEntries(s)))
      case _ => Some("")
  }

  /** A string in place of the products object lists its characters. */
  lemma StringProducts()
    ensures ProductsCell([Entry("products", Text("ab"))]) == Some("0: a, 1: b")
  {
    var es := CharEntries("ab");
    assert Decimal(0) == "0" && Decimal(1) == "1";
    assert es == [Entry("0", Text("a")), Entry("1", Text("b"))];
    assert EntryText(es[0]) == "0: a" && EntryText(es[1]) == "1: b";
    assert es[1..] == [Entry("1", Text("b"))];
    assert ProductsText(es) == "0: a" + ", " + "1: b" == "0: a, 1: b";
    var order := [Entry("products", Text("ab"))];
    assert Get(order, "products") == Some(Text("ab"));
    assert ProductsCell(order) == Some(ProductsText(es));
  }

  /** One product with quantity 2 renders as "Tea: 2". */
  lemma TeaForTwo()
    ensures ProductsText([Entry("Tea", Num(2))]) == "Tea: 2"
  {
  }

  // ---------------------------------------------------------------------------
  // The component

  class OrdersTable {
    var orders: seq<Record>
    var loading: bool
    var error: Option<string>
    var successMessage: string
    var editIndex: Option<int>
    var editData: Option<Record>
    var sortConfig: SortConfig

    /** The state on mount: no orders yet, loading, sorted by creation date ascending. */
    constructor ()
      ensures orders == [] && loading && error == None && successMessage == ""
      ensures editIndex == None && editData == None
      ensures sortConfig == InitialSortConfig
      ensures !ShowsTable()
    {
      orders := [];
      loading := true;
      error := None;
      successMessage := "";
      editIndex := None;
      editData := None;
      sortConfig := InitialSortConfig;
    }

    /** Whether the table is rendered: loading finished and no error. */
    function ShowsTable(): bool
      reads this
    {
      !loading && error.None?
    }

    /** Applies the answer of the orders request. */
    method FetchOrders(outcome: FetchOutcome)
      modifies this`orders, this`loading, this`error
      ensures !loading
      ensures outcome.Received? ==> (ShowsTable() <==> old(error) == None)
      ensures outcome == Received(None) ==> orders == [] && error == old(error)
      ensures outcome.Received? && outcome.payload.Some? ==>
        orders == outcome.payload.value && error == old(error)
      ensures outcome == FetchFailed ==>
        orders == old(orders) && error == Some(FetchErrorMessage) && !ShowsTable()
    {
      match outcome {
        case Received(payload) =>
          orders := if payload.Some? then payload.value else [];
          loading := false;
        case FetchFailed =>
          error := Some(FetchErrorMessage);
          loading := false;
      }
    }

    /** A click on the header of column `key`. */
    method HandleSort(key: string)
      modifies this`sortConfig
      ensures sortConfig == NextSortConfig(old(sortConfig), key)
    {
      var direction := Ascending;
      if sortConfig.key == key && sortConfig.direction == Ascending {
        direction := Descending;
      }
      sortConfig := SortConfig(key, direction);
    }

    /** The trash icon of row `index`: drops position `index` of the unsorted list. */
    method HandleDelete(index: int)
      modifies this`orders, this`successMessage
      ensures orders == RemoveAt(old(orders), index)
      ensures 0 <= index < |old(orders)| ==> |orders| == |old(orders)| - 1
      ensures successMessage == DeletedMessage
    {
      orders := RemoveAt(orders, index);
      successMessage := DeletedMessage;
    }

    /** The edit icon of row `index`: captures the position and copies the record at it. */
    method HandleEdit(index: int)
      modifies this`editIndex, this`editData
      ensures editIndex == Some(index)
      ensures 0 <= index < |orders| ==> editData == Some(orders[index])
      ensures !(0 <= index < |orders|) ==> editData == Some([])
    {
      editIndex := Some(index);
      editData := Some(EditCopy(orders, index));
    }

    /** Writes the buffer back at the captured position and leaves edit mode. */
    method HandleSaveEdit()
      requires editIndex.Some? && editData.Some? ==> editIndex.value <= |orders|
      modifies this`orders, this`editIndex, this`editData, this`successMessage
      ensures old(editIndex) == None || old(editData) == None ==>
        && orders == old(orders) && editIndex == old(editIndex)
        && editData == old(editData) && successMessage == old(successMessage)
      ensures old(editIndex).Some? && old(editData).Some? ==>
        && orders == WriteBack(old(orders), old(editIndex).value, old(editData).value)
        && editIndex == None && editData == None
        && successMessage == UpdatedMessage
    {
      if editIndex == None || editData == None {
        return;
      }
      orders := WriteBack(orders, editIndex.value, editData.value);
      editIndex := None;
      editData := None;
      successMessage := UpdatedMessage;
    }

    /** Sets field `key` of the buffer to `value`; a missing buffer spreads as `{}`. */
    method HandleEditChange(key: string, value: Value)
      modifies this`editData
      ensures editData.Some?
      ensures Get(editData.value, key) == Some(value)
      ensures old(editData).Some? ==>
        forall k :: k != key ==> Get(editData.value, k) == Get(old(editData).value, k)
      ensures old(editData) == None ==> editData == Some([Entry(key, value)])
      ensures editData == Some(Set(if old(editData).Some? then old(editData).value else [], key, value))
    {
      var prev := if editData.Some? then editData.value else [];
      editData := Some(Set(prev, key, value));
    }
  }
}

=== FILE: outlet_partners.dfy ===
/**
  The outlet partners screen: a local list of partners fetched from the
  server, a delete action that drops a partner locally only once the server
  has confirmed the deletion, and a form record with a field-change
  handler that the screen defines but never calls.
*/
module OutletPartners {
  import opened Js

  /** A partner as the list endpoint returns it: an id and its profile data. */
  datatype Partner = Partner(id: string, data: Record)

  /** How the partner list request ended: it threw, or it answered with `body`. */
  datatype FetchOutcome = FetchFailed | Fetched(body: seq<Partner>)

  /** The form on mount: empty name and phone fields and no image. */
  const InitialForm: Record := [
    Entry("firstName", Text("")),
    Entry("lastName", Text("")),
    Entry("phone", Text("")),
    Entry("img", Null)
  ]

  lemma InitialFormFields()
    ensures UniqueKeys(InitialForm)
    ensures Get(InitialForm, "firstName") == Some(Text(""))
    ensures Get(InitialForm, "lastName") == Some(Text(""))
    ensures Get(InitialForm, "phone") == Some(Text(""))
    ensures Get(InitialForm, "img") == Some(Null)
    ensures Keys(InitialForm) == {"firstName", "lastName", "phone", "img"}
  {
  }

  /** `partners.filter((partner) => partner.id !== id)`. */
  function WithoutPartner(partners: seq<Partner>, id: string): (r: seq<Partner>)
    ensures |r| <= |partners|
  {
    if partners == [] then []
    else (if partners[0].id == id then [] else [partners[0]]) + WithoutPartner(partners[1..], id)
  }

  /**
    No partner with the id is left, every other partner is kept, nothing new
    appears, and a list without that id comes back whole.
  */
  lemma {:induction false} WithoutPartnerMembers(partners: seq<Partner>, id: string)
    ensures forall p :: p in WithoutPartner(partners, id) <==> p in partners && p.id != id
    ensures (forall p :: p in partners ==> p.id != id) ==> WithoutPartner(partners, id) == partners
  {
    if partners != [] {
      WithoutPartnerMembers(partners[1..], id);
      assert partners == [partners[0]] + partners[1..];
    }
  }

  /** Filtering works run by run, so the partners kept stay in their original order. */
  lemma {:induction false} WithoutPartnerAppend(a: seq<Partner>, b: seq<Partner>, id: string)
    ensures WithoutPartner(a + b, id) == WithoutPartner(a, id) + WithoutPartner(b, id)
  {
    if a == [] {
      assert a + b == b;
    } else {
      var head := if a[0].id == id then [] else [a[0]];
      assert (a + b)[0] == a[0] && (a + b)[1..] == a[1..] + b;
      assert WithoutPartner(a + b, id) == head + WithoutPartner(a[1..] + b, id);
      assert WithoutPartner(a, id) == head + WithoutPartner(a[1..], id);
      WithoutPartnerAppend(a[1..], b, id);
    }
  }

  /** The filter leaves nothing exactly when every partner has the id. */
  lemma WithoutPartnerEmpty(partners: seq<Partner>, id: string)
    ensures WithoutPartner(partners, id) == [] <==> forall p :: p in partners ==> p.id == id
  {
    WithoutPartnerMembers(partners, id);
    var r := WithoutPartner(partners, id);
    if r != [] {
      assert r[0] in r;
    }
  }

  /** Removing the same id twice removes nothing more. */
  lemma WithoutPartnerIdempotent(partners: seq<Partner>, id: string)
    ensures WithoutPartner(WithoutPartner(partners, id), id) == WithoutPartner(partners, id)
  {
    WithoutPartnerMembers(partners, id);
    WithoutPartnerMembers(WithoutPartner(partners, id), id);
  }

  class OutletPartnerDetails {
    var partners: seq<Partner>
    var editPartner: Option<Partner>
    var formData: Record

    /** The state on mount. */
    constructor ()
      ensures partners == [] && editPartner == None && formData == InitialForm
      ensures ShowsNoPartnersMessage()
    {
      partners := [];
      editPartner := None;
      formData := InitialForm;
    }

    /** Whether the "No outlet partner found" message is shown instead of the table. */
    function ShowsNoPartnersMessage(): bool
      reads this
    {
      |partners| == 0
    }

    /** Applies the answer of the partner list request. */
    method FetchPartners(outcome: FetchOutcome)
      modifies this`partners
      ensures outcome.Fetched? ==> partners == outcome.body
      ensures outcome.Fetched? ==> (ShowsNoPartnersMessage() <==> outcome.body == [])
      ensures outcome == FetchFailed ==> partners == old(partners)
    {
      if outcome.Fetched? {
        partners := outcome.body;
      }
    }

    /**
      The delete button of partner `id`, once the server's answer is in:
      `deleted` tells whether the delete request succeeded.
    */
    method HandleDelete(id: string, deleted: bool)
      modifies this`partners
      ensures deleted ==> partners == WithoutPartner(old(partners), id)
      ensures !deleted ==> partners == old(partners)
      ensures deleted ==>
        (ShowsNoPartnersMessage() <==> forall p :: p in old(partners) ==> p.id == id)
      ensures formData == old(formData) && editPartner == old(editPartner)
    {
      if deleted {
        WithoutPartnerEmpty(partners, id);
        partners := WithoutPartner(partners, id);
      }
    }

    /**
      The field-change handler: sets field `name` of the form to `value`.
      No input of the screen is wired to it.
    */
    method HandleInputChange(name: string, value: string)
      modifies this`formData
      ensures formData == Set(old(formData), name, Text(value))
      ensures Get(formData, name) == Some(Text(value))
      ensures forall k :: k != name ==> Get(formData, k) == Get(old(formData), k)
      ensures partners == old(partners) && editPartner == old(editPartner)
    {
      formData := Set(formData, name, Text(value));
    }

    /** The edit button of a partner row: opens the edit dialog on that partner. */
    method OpenEditor(p: Partner)
      modifies this`editPartner
      ensures editPartner == Some(p)
    {
      editPartner := Some(p);
    }

    /** The edit dialog closes itself. */
    method CloseEditor()
      modifies this`editPartner
      ensures editPartner == None
    {
      editPartner := None;
    }
  }
}
